=== FILE: README.md ===
# nativescript-sqlite (Android): statement execution and result projection

A Dafny model of the `Sqlite` class of `src/sqlite.android.ts`. The class keeps
one database session. It runs SQL through the native `SQLiteDatabase` handle and
turns cursor rows into arrays or objects of native or string values.

The model is functional. A session is an immutable `Session` record: the open
flag, the two projection defaults (`_resultType`, `_valuesType`) and the
constructor options. The single static instance `Sqlite.self` is an
`Option<Session>` that the constructor reads and returns. Everything the class
uses without defining it is an oracle in an `Env` record:

- what `rawQuery` answers: a cursor over a finite `seq<Row>` whose `getCount()` is its length, or an error;
- what `execSQL` answers;
- which DbResult projections throw;
- what a query throws when the session holds no live handle (never opened, or closed);
- JavaScript's `toString` on a bind parameter.

The native close is a parameter of `Lifecycle.Close`: nothing, or the error it throws.

The five DbResult engines are uninterpreted. They are identified by the tag
`Engine`, and a projected row is the term `Projected(engine, row)`.
`GetResults` stands for whatever `DbResult.getResults` is at the time of the
call. The setters hand the session defaults to DbResult, which may re-bind it.

Each entry point (`get`, `execSQL`, `all`, `each`, `version`) is a pure
function returning a `Run` with three parts:

- the promise outcome (`Resolve(v)` or `Reject(reason)`);
- the caller-supplied functions it invoked, with their arguments, in order;
- the native calls it made, including every `cursor.close()`.

That is enough to state the following:

- the callback and the promise agree;
- the closed-session guards make no native call;
- zero-row and non-empty outcomes;
- the per-row callback counts and their order;
- the follow-up query of `execSQL`.

Modules follow the class's parts:

- `Modes`: the RESULT_TYPE constants and `_getResultEngine`.
- `Coercion`: `_toStringArray`.
- `Keywords`: the statement classification in `execSQL`.
- `Lifecycle`: the constructor, setters, `openDatabase` and `close`.
- `Executor`: the entry points.
- `ExecutorLemmas`: the properties relating them to the cursor's rows.
- `Externals`: the collaborators and the shapes of a call.
- `Maybe`: an option type.

The RESULT_TYPE constants come from the `dbresult` module, which is not part of
this model. They are assumed to have the values RESULTSASARRAY 1,
RESULTSASOBJECT 2, VALUESARENATIVE 4, VALUESARESTRINGS 8. The lemmas about
`Modes.ResolveEngine` are proved for these values. That the fallbacks of lines
89-95 are dead code needs only four distinct single bits: `Modes.DistinctBits`
states that hypothesis, and `Modes.FallbacksDeadForAnyBits` proves the dead
fallbacks from it alone.

The model follows the code on these points:

- `get`, `all` and `each` leave the cursor open when a projection throws. Only their success paths and the zero-row path call `cursor.close()`.
- `each` has no open check. A session that is not open holds no live handle: `_db` is set only by a successful open, and `close` closes it. The query of `each` therefore throws, and the error goes to `complete` or else the row callback.
- `get` resolves the mode with the expressions of lines 88 and 92 as written. The fallbacks to the session defaults inside `_getResultEngine` are dead code. See Findings.

## Model

| member | source | states |
|---|---|---|
| Modes.SelectEngine | src/sqlite.android.ts:97-109 | the engine is an object engine exactly when the row shape is RESULTSASOBJECT, a string engine exactly when the value shape is VALUESARESTRINGS, and never the plain `getResults` |
| Modes.RowShape | src/sqlite.android.ts:88-91 | as written, the row axis is never 0, so the default is never used; it is RESULTSASOBJECT exactly when the mode lacks the array bit |
| Modes.ValueShape | src/sqlite.android.ts:92-95 | as written, the value axis is never 0; it is VALUESARESTRINGS exactly when the mode lacks the native bit |
| Modes.MaskedAxis | src/sqlite.android.ts:88-95 | for any single-bit constant `o` disjoint from `a`, `(m & a) \| o` is never 0 and equals `o` exactly when the mode lacks `a` |
| Modes.FallbacksDeadForAnyBits | src/sqlite.android.ts:88-95 | for any four distinct single-bit RESULT_TYPE constants, the fallbacks of lines 89-95 are unreachable |
| Modes.ResolveEngine | src/sqlite.android.ts:85-111 | a null, undefined or 0 mode, and only such a mode, yields `DbResult.getResults`; any other mode yields one of the four `asRow*` engines |
| Modes.ResolveEngineClosedForm | src/sqlite.android.ts:88-109 | as written, a non-zero mode gives object rows exactly when it lacks the RESULTSASARRAY bit and strings exactly when it lacks the VALUESARENATIVE bit |
| Modes.DefaultsNeverConsulted | src/sqlite.android.ts:88-95 | as written, the engine `_getResultEngine` picks does not depend on the session defaults: neither masked expression can be 0 |
| Modes.ResolveEngineIntended | src/sqlite.android.ts:85-111 | with each axis masked by both of its bits, no mode still means `getResults` and any other mode one of the four row engines |
| Modes.IntendedHonoursDefaults | src/sqlite.android.ts:88-95 | corrected resolution: an axis the mode leaves unset takes the session default, otherwise the mode's own bit decides |
| Modes.ResolutionsAgree | src/sqlite.android.ts:88-95 | both resolutions pick the same engine for every mode naming a bit on each axis |
| Modes.ValueOnlyModeGivesObjectRows | src/sqlite.android.ts:88-101 | mode VALUESARENATIVE on an array/native session: object rows as written, array rows as intended |
| Modes.ArrayOnlyModeGivesStrings | src/sqlite.android.ts:88-105 | as written, the bare RESULTSASARRAY mode that `version` passes selects arrays of strings whatever the defaults |
| Modes.FollowUpModeGivesArrayNative | src/sqlite.android.ts:282 | the RESULTSASARRAY\|VALUESARENATIVE mode of execSQL's follow-up selects arrays of native values |
| Coercion.CoerceAll | src/sqlite.android.ts:132-139 | the output has the input's length and each entry is the coercion of the entry at the same index |
| Coercion.ToStringArray | src/sqlite.android.ts:129-148 | an array keeps length and order, nulls stay null and other entries become their string; a single value gives exactly one element, null for null/undefined |
| Coercion.CoerceAllAppend | src/sqlite.android.ts:132-139 | coercion distributes over concatenation, so the output preserves the input's order |
| Coercion.NullsStayInPlace | src/sqlite.android.ts:132-138 | an output entry is null exactly where the input entry is null or undefined |
| Keywords.TrimStart | src/sqlite.android.ts:253 | the result is a suffix of the input, what was removed is all white space, and the result does not start with white space |
| Keywords.TrimEnd | src/sqlite.android.ts:253 | the result is a prefix of the input, what was removed is all white space, and the result does not end with white space |
| Keywords.Trim | src/sqlite.android.ts:253 | `trim()` is empty exactly for an all-blank string, otherwise starts and ends with a non-blank character |
| Keywords.TrimIdempotent | src/sqlite.android.ts:253 | trimming a trimmed string changes nothing |
| Keywords.LowerChar | src/sqlite.android.ts:253 | ASCII folding of `toLowerCase()` on one character: A-Z map to a-z at the same offset, every other character is kept, and no upper-case ASCII letter remains |
| Keywords.Lower | src/sqlite.android.ts:253 | ASCII folding of `toLowerCase()`: keeps length, maps each A-Z to the matching a-z and keeps every other character |
| Keywords.LowerIdempotent | src/sqlite.android.ts:253 | lower-casing a lower-cased string changes nothing |
| Keywords.Classify | src/sqlite.android.ts:252-258 | a statement needing a follow-up is longer than seven characters once trimmed, its seventh being the keyword's blank |
| Keywords.Prefix | src/sqlite.android.ts:253 | `substr(0, n)` as the first n code points, or all of a shorter string |
| Keywords.TrimStartAt | src/sqlite.android.ts:253 | leading white space up to a non-blank character is exactly what trimming removes |
| Keywords.TrimEndPrefix | src/sqlite.android.ts:253 | trimming the end keeps every character up to a non-blank one unchanged |
| Keywords.TrimEndKeeps | src/sqlite.android.ts:253 | trimming the end of a suffix keeps it unchanged up to a non-blank character |
| Keywords.TrimKeepsBetween | src/sqlite.android.ts:253 | `trim()` of a string whose first non-blank character is at i starts with everything from i up to any later non-blank character |
| Keywords.HeadIsKeywordOnlyIf | src/sqlite.android.ts:253-257 | a trimmed, lower-cased 7-character head equal to a keyword means the keyword follows the leading white space and a non-blank character follows it |
| Keywords.HeadIsKeywordIf | src/sqlite.android.ts:253-257 | a keyword after leading white space, followed by something non-blank, is what the head equals |
| Keywords.HeadIsKeyword | src/sqlite.android.ts:253-257 | the head equals a keyword if and only if the keyword appears in that sense |
| Keywords.ClassifyMatchesKeywords | src/sqlite.android.ts:252-258 | a statement is an insert exactly when "insert " starts it case-insensitively after white space with more text after; an update/delete likewise; anything else needs no follow-up |
| Keywords.ClassifyInsertExample | src/sqlite.android.ts:253-255 | `INSERT INTO t(x) VALUES('a')` is classified as an insert |
| Keywords.ClassifyUpdateExample | src/sqlite.android.ts:253-257 | `  update t SET x='b'` is classified as a change |
| Keywords.ClassifyCreateExample | src/sqlite.android.ts:253-258 | `CREATE TABLE t(x)` needs no follow-up |
| Keywords.ClassifyBareKeyword | src/sqlite.android.ts:253-258 | a bare `insert ` is trimmed to six characters and needs no follow-up |
| Lifecycle.Construct | src/sqlite.android.ts:15-51 | intended constructor: an existing instance is returned whatever the name; otherwise a closed array/native session with the given name, registered unless creating a file database's folder failed |
| Lifecycle.ConstructAsWritten | src/sqlite.android.ts:36-49 | as written, the folder step always fails: the same new session as intended; with no registered instance it registers itself exactly for in-memory and temporary names, and an existing registration is kept |
| Lifecycle.FileDatabaseNeverRegistered | src/sqlite.android.ts:36-49 | as written, a file database's session is never registered; as intended, it is once its folder exists; so a second construction as written builds a fresh session instead of returning the first |
| Lifecycle.ConstructTwiceSameInstance | src/sqlite.android.ts:16-17 | a second construction, with any name, returns the first session |
| Lifecycle.SetResultType | src/sqlite.android.ts:150-160 | only RESULTSASARRAY and RESULTSASOBJECT change the default, any other value leaves the state unchanged, and the current row-shape default is returned |
| Lifecycle.SetValueType | src/sqlite.android.ts:162-172 | only VALUESARENATIVE and VALUESARESTRINGS change the default, any other value leaves the state unchanged, and the row-shape default is returned |
| Lifecycle.SetValueTypeIntended | src/sqlite.android.ts:162-172 | same state change as `valueType`; reports the value just set when it is recognised, the old default otherwise, so a valid session always reports a value-shape constant |
| Lifecycle.ValueTypeReportsRowShape | src/sqlite.android.ts:171 | asking a fresh session for string values reports RESULTSASARRAY as written and VALUESARESTRINGS as intended |
| Lifecycle.SettersPreserveValid | src/sqlite.android.ts:150-172 | the setters keep both defaults recognised constants and are idempotent |
| Lifecycle.SettersAreIndependent | src/sqlite.android.ts:150-172 | each setter touches only its own axis and never the open flag |
| Lifecycle.OpenCall | src/sqlite.android.ts:58-83 | flags are `androidFlags` or 0; a file database opens its name with CREATE_IF_NECESSARY (0x10000000) added and the other bits kept, an in-memory one with the flags alone |
| Lifecycle.OpenDatabase | src/sqlite.android.ts:58-74 | intended open: success sets the open flag and resolves with the session; failure rejects with the native error and changes nothing |
| Lifecycle.OpenDatabaseAsWritten | src/sqlite.android.ts:58-83 | as written, `openDatabase` behaves as an open whose native call always throws, except that no native call is made |
| Lifecycle.OpenAsWrittenNeverOpens | src/sqlite.android.ts:58-83 | as written, every open rejects, leaves the session closed and makes no native call; as intended, a succeeding native open opens it |
| Lifecycle.Close | src/sqlite.android.ts:174-187 | on a closed session rejects with "Database is already closed" and changes nothing; on an open one calls the native close, and clears the flag and resolves unless that throws, in which case it rejects with the error and the session stays open |
| Lifecycle.OpenThenCloseRestores | src/sqlite.android.ts:174-187 | a successful open followed by close returns a closed session to its original state |
| Lifecycle.CloseTwiceRejects | src/sqlite.android.ts:174-187 | after a close that succeeded, a second close always rejects with "Database is already closed"; after one that threw, the session is still open and can be closed |
| Executor.QueryArgs | src/sqlite.android.ts:205-209 | the native call gets null only for strictly undefined parameters; an explicit null is one null argument, a single value one string, and an array one argument per element with nulls exactly at the nullish elements |
| Executor.Get | src/sqlite.android.ts:189-241 | with a callback it is called exactly once with what the promise settles with; on a closed session rejects without a native call; a resolved call queried once and closed the cursor |
| Executor.WalkRows | src/sqlite.android.ts:344-355 | rows are projected with `getResults` in cursor order up to the first that throws, and that one's error is reported |
| Executor.AllFails | src/sqlite.android.ts:307-318 | an error reaches the callback and rejects with the error, or, without a callback, rejects with null |
| Executor.All | src/sqlite.android.ts:300-361 | callback and promise agree; without a callback every rejection is null; a closed session rejects without a native call; a resolution is a row list after the cursor is closed |
| Executor.Each | src/sqlite.android.ts:363-421 | without a callback rejects at once; on a session that is not open the query throws and `each` rejects; with `complete` every outcome is reported to it; without it errors go to the row callback; a resolution is a count after the cursor is closed |
| Executor.FirstColumn | src/sqlite.android.ts:280 | `data && data[0]` never hands back the whole row: null stays null and a row gives its first column |
| Executor.FollowUp | src/sqlite.android.ts:275-292 | the follow-up query runs after the statement with a single null parameter and calls nobody back |
| Executor.ExecSql | src/sqlite.android.ts:243-298 | closed session rejects without running; the statement runs first; a failing statement rejects with its error before any follow-up; a statement needing no follow-up makes exactly one native call |
| Executor.ParseFirst | src/sqlite.android.ts:116 | `data && parseInt(data[0], 10)` never hands back the whole row: null stays null and a row gives its parsed first column |
| Executor.Version | src/sqlite.android.ts:113-123 | returns undefined; a function is called back once with the read's error; a number runs `PRAGMA user_version = n`; anything else reads with no callback |
| ExecutorLemmas.GetRejectsWhenClosed | src/sqlite.android.ts:196-201 | closed session: `get` rejects with "Database is not open", calls back `(null, message)` if it can, and makes no native call |
| ExecutorLemmas.AllRejectsWhenClosed | src/sqlite.android.ts:307-318 | closed session: `all` makes no native call and rejects with the message when there is a callback, with null when `reject` stands in for it |
| ExecutorLemmas.ExecSqlRejectsWhenClosed | src/sqlite.android.ts:245-249 | closed session: `execSQL` rejects with "Database is not open" and makes no native call |
| ExecutorLemmas.EachFailsWhenClosed | src/sqlite.android.ts:381-393 | on a session that is not open, `each` makes only the failing query, reports `(null, error)` once to `complete` or else the row callback, and rejects |
| ExecutorLemmas.GetZeroRows | src/sqlite.android.ts:216-223 | zero rows: `get` closes the cursor, calls back `(null, null)` if it can and resolves null |
| ExecutorLemmas.AllZeroRows | src/sqlite.android.ts:334-341 | zero rows: `all` closes the cursor and resolves `[]` |
| ExecutorLemmas.EachZeroRows | src/sqlite.android.ts:395-402 | zero rows: `each` closes the cursor, calls `complete(0, null)` if supplied and resolves 0 |
| ExecutorLemmas.GetProjectsFirstRow | src/sqlite.android.ts:225-239 | a non-empty cursor: `get` resolves the first row projected with the resolved engine |
| ExecutorLemmas.GetProjectionThrows | src/sqlite.android.ts:227-235 | a throwing engine rejects `get` with its error and leaves the cursor open |
| ExecutorLemmas.AllCollectsEveryRow | src/sqlite.android.ts:342-359 | `all` resolves exactly when no projection throws, and then with exactly count rows, in cursor order, each via `getResults` |
| ExecutorLemmas.EachCallsBackPerRow | src/sqlite.android.ts:403-419 | the row callback is called exactly count times in cursor order, then `complete(count, null)` if supplied, resolving count with the cursor closed |
| ExecutorLemmas.EachStopsAtFirstFailure | src/sqlite.android.ts:405-415 | a projection throwing at row k: rows before k were called back, the error goes to `complete` or else the row callback, the promise rejects and the cursor stays open |
| ExecutorLemmas.ExecSqlFollowUpQuery | src/sqlite.android.ts:271-292 | after an insert `select last_insert_rowid()` runs, after an update or delete `select changes()` |
| ExecutorLemmas.ExecSqlResolvesFirstColumn | src/sqlite.android.ts:275-291 | the follow-up's first row, projected as an array of native values, gives the resolved first column; no row resolves null |
| ExecutorLemmas.ExecSqlFollowUpFails | src/sqlite.android.ts:276-279 | a follow-up query that throws rejects `execSQL` with its error |
| ExecutorLemmas.ExecSqlFollowUpProjectionFails | src/sqlite.android.ts:227-235 | a follow-up whose first row's projection throws rejects `execSQL` with that error (lines 233, 277-278) |
| ExecutorLemmas.NothingRunsAsWritten | src/sqlite.android.ts:58-83 | as written, after `openDatabase` both `execSQL` and `get` reject with "Database is not open" |
| ExecutorLemmas.ExecSqlPlainResolvesNull | src/sqlite.android.ts:271-274 | any other statement resolves null after exactly the one native call |
| ExecutorLemmas.VersionSetsWithoutFollowUp | src/sqlite.android.ts:118-119 | `version(n)` on an open session makes exactly the one `PRAGMA user_version = n` call: no follow-up query and no callback |
| ExecutorLemmas.VersionCallsBackParsed | src/sqlite.android.ts:114-117 | `version(fn)` reads `user_version` as an array of strings and calls `fn` with the parsed first column and no error |

## Left out

- Path resolution in the constructor (lines 29-30), `_getContext`, `exists`, `deleteDatabase` and `copyDatabase`: platform file-system work.
- Lifecycle.Construct: models the intended constructor. Whether the folder could be created is an input. As written, the folder step always fails (see Findings), which `Lifecycle.ConstructAsWritten` models.
- Lifecycle.OpenDatabase: models the intended open, which the statement entry points build on. As written, every open rejects (see Findings), and every success path of `get`, `all`, `each` and `execSQL` is reachable only under the intended open.
- The native `SQLiteDatabase` calls: each is an oracle in `Env`, or a parameter, that answers or fails. The database's contents are not modelled, so an oracle's answer does not depend on earlier statements.
- `cursor.close()` is assumed not to throw: the model logs it as a native call that always succeeds.
- A session that is not open is not split into "never opened" and "closed". On both, the query of `each` throws the same `Env.noHandle` error, and the failing query is logged as a native call.
- DbResult's projections and `setResultValueTypeEngine`: `dbresult` is not part of this model. Projections are uninterpreted terms. The engine registration the setters make is not modelled, so `GetResults` is whatever `DbResult.getResults` is at call time.
- `console.error` logging and promise scheduling: a call has one outcome value. The nested `get` inside `execSQL` and `version` settles a promise of its own that nobody observes; the model keeps only the callback it invokes and the native calls it makes.
- Object identity: sessions are values. "Closing one reference closes it for both" is not expressible. The constructor returns the registered value itself.
- The overloads `all(sql, callback)` and `each(sql, callback, complete)` that shift a function `params` into the callback slots (lines 301-304, 364-368). The model takes the arguments after that shift.
- Callbacks that are truthy but not functions, and callbacks that throw: the model assumes supplied callbacks are functions that return normally.
- `version`'s numeric check and number formatting (lines 118-119): the model receives the number's decimal text and models only the dispatch.
- `isSqlite`: trivial duck-typing.
- Keywords.Lower, Keywords.LowerChar, Keywords.Prefix: `toLowerCase` is folded to ASCII, so non-ASCII letters are not lower-cased and no string gets longer (JavaScript maps U+0130 to two units). `substr` is modelled over code points, not UTF-16 code units.
- Keywords.Classify: `toLowerCase` is folded to ASCII and strings are sequences of code points rather than UTF-16 units. No character outside A-Z lower-cases to a single character of the three keywords, so the classification agrees. This agreement is argued, not proved.
- Modes.ResolveEngineClosedForm: proved for the constant values, assumed to be 1, 2, 4 and 8, not for every assignment of distinct bits. The same holds for `Modes.DefaultsNeverConsulted`, `Modes.ResolutionsAgree`, `Modes.IntendedHonoursDefaults`, `Modes.ValueOnlyModeGivesObjectRows`, `Modes.ArrayOnlyModeGivesStrings`, `Modes.FollowUpModeGivesArrayNative`, `Modes.RowShape` and `Modes.ValueShape`. `Modes.FallbacksDeadForAnyBits` carries the dead-fallback part to any four distinct single bits.
- The JavaScript accidents: the unbound `this` in the executors of `all` and `each` (lines 306, 370) and the call to a possibly undefined `callback` in `get`'s error branches (lines 212, 233). The model follows the evident control flow instead.

## Findings

| source | as written | input that shows it | evidently intended | confidence | as-written member | corrected member |
|---|---|---|---|---|---|---|
| src/sqlite.android.ts:88-95 | `mode & RESULTSASARRAY \| RESULTSASOBJECT` parses as `(mode & RESULTSASARRAY) \| RESULTSASOBJECT`, which is never 0. The fallbacks to the session defaults in `_getResultEngine` are dead code, and a mode without the array bit always selects object rows. The value axis behaves the same way. | `get(sql, params, cb, VALUESARENATIVE)` on a session whose defaults are array/native selects `asRowObjectNative` | `mode & (RESULTSASARRAY \| RESULTSASOBJECT)`, with the default used when the mode names neither bit | high; not executed | Modes.ValueOnlyModeGivesObjectRows | Modes.IntendedHonoursDefaults |
| src/sqlite.android.ts:36-49 | `var java = java \|\| {}` declares a hoisted local `java` that is still undefined on the right-hand side, so `java` becomes `{}` and `new java.io.File(path)` throws for every file name; line 46 returns before `Sqlite.self = this` | `new Sqlite("app.db")` with no instance yet: the object is returned but never registered | use the platform's global `java` (no local declaration), so the folder is created and the instance registered | high; not executed | Lifecycle.FileDatabaseNeverRegistered | Lifecycle.Construct |
| src/sqlite.android.ts:77-83 | `var android = android \|\| {}` shadows the global the same way, so `android.database` is undefined and `_openDatabase` throws before any native call; `openDatabase` rejects at lines 66-68 | `openDatabase()` on any session: rejects, `_isOpen` stays false | use the platform's global `android` | high; not executed | Lifecycle.OpenAsWrittenNeverOpens | Lifecycle.OpenDatabase |
| src/sqlite.android.ts:171 | `valueType` returns `this._resultType` | `valueType(VALUESARESTRINGS)` on a fresh session returns RESULTSASARRAY | return `this._valuesType`, mirroring `resultType` | high; not executed | Lifecycle.ValueTypeReportsRowShape | Lifecycle.SetValueTypeIntended |

`Executor.Get` keeps the resolution as written, because the model follows the code.
`Modes.ResolutionsAgree` shows the correction changes nothing for modes that name a bit on each axis.
That covers the RESULTSASARRAY|VALUESARENATIVE follow-up of `execSQL`.
Of the modes used in the class, only `version`'s bare RESULTSASARRAY is affected.
`Modes.ArrayOnlyModeGivesStrings` gives its as-written engine.

=== FILE: coercion.dfy ===
/** Bind-parameter coercion (`_toStringArray` in src/sqlite.android.ts). */
module Coercion {
  import opened Maybe

  /** A JavaScript bind parameter: `undefined`, `null`, or some other value. */
  datatype Param<A> = UndefinedParam | NullParam | Given(v: A)
  {
    /** JavaScript's loose `x == null`, true of both `null` and `undefined`. */
    predicate IsNullish() {
      UndefinedParam? || NullParam?
    }
  }

  /** The `params` argument: a single value, or an array of them. */
  datatype Params<A> = Single(p: Param<A>) | List(ps: seq<Param<A>>)

  /** Parameters left out of a call (`params === undefined`). */
  function Omitted<A>(): Params<A> {
    Single(UndefinedParam)
  }

  /** `params === undefined`: strict, so `null` does not count. */
  predicate IsOmitted<A>(params: Params<A>) {
    params.Single? && params.p.UndefinedParam?
  }

  /** One parameter as a bind string: nullish values stay `null`, any other
      value becomes its `toString()`. */
  function CoerceOne<A>(p: Param<A>, toStr: A -> string): (r: Option<string>)
    ensures r.None? <==> p.IsNullish()
    ensures p.Given? ==> r == Some(toStr(p.v))
  {
    if p.IsNullish() then None else Some(toStr(p.v))
  }

  /** The loop of lines 132-139: every element coerced, in order. */
  function CoerceAll<A>(ps: seq<Param<A>>, toStr: A -> string): (r: seq<Option<string>>)
    ensures |r| == |ps|
    ensures forall i :: 0 <= i < |ps| ==> r[i] == CoerceOne(ps[i], toStr)
  {
    if ps == [] then [] else [CoerceOne(ps[0], toStr)] + CoerceAll(ps[1..], toStr)
  }

  /** `_toStringArray`: an array gives one entry per element, a single value
      gives a one-element list. */
  function ToStringArray<A>(params: Params<A>, toStr: A -> string): (r: seq<Option<string>>)
    ensures params.List? ==> |r| == |params.ps|
    ensures params.List? ==> forall i :: 0 <= i < |r| ==>
      (r[i].None? <==> params.ps[i].IsNullish()) &&
      (params.ps[i].Given? ==> r[i] == Some(toStr(params.ps[i].v)))
    ensures params.Single? ==> r == [CoerceOne(params.p, toStr)]
  {
    match params
    case List(ps) => CoerceAll(ps, toStr)
    case Single(p) => [CoerceOne(p, toStr)]
  }

  /** Coercion acts element by element, so it distributes over concatenation:
      the output keeps the input's order. */
  lemma {:induction false} CoerceAllAppend<A>(xs: seq<Param<A>>, ys: seq<Param<A>>, toStr: A -> string)
    ensures CoerceAll(xs + ys, toStr) == CoerceAll(xs, toStr) + CoerceAll(ys, toStr)
  {
    if xs == [] {
      assert xs + ys == ys;
    } else {
      assert (xs + ys)[1..] == xs[1..] + ys;
      CoerceAllAppend(xs[1..], ys, toStr);
    }
  }

  /** The null entries of the output sit exactly where the input's nullish
      entries do. */
  lemma NullsStayInPlace<A>(ps: seq<Param<A>>, toStr: A -> string, i: int)
    requires 0 <= i < |ps|
    ensures ToStringArray(List(ps), toStr)[i] == None <==> ps[i].IsNullish()
  {
  }
}

=== FILE: executor.dfy ===
/**
 * The four statement entry points of the `Sqlite` class — `get`,
 * `execSQL`, `all`, `each` — and the `version` dispatch
 * (src/sqlite.android.ts:113-123, 189-421).
 *
 * Each call is a pure function of the session, the collaborators' answers
 * (`Env`) and its arguments, and returns a `Run`: how its promise settles,
 * which caller-supplied functions it invoked with what, and which native
 * calls it made.  A callback argument is modelled by whether it is a
 * function (`typeof callback === 'function'`).
 *
 * Two accidents of the JavaScript are replaced by the evident control flow:
 * the executors of `all` and `each` are `function`s, so their `this` is not
 * the session (here the session is passed explicitly); and the error
 * branches of `get` call `callback` even when none was given (here they
 * invoke it only when it is a function, as the other branches do).
 */
module Executor {
  import opened Maybe
  import opened Modes
  import opened Externals
  import opened Coercion
  import opened Keywords
  import opened Lifecycle

  const NotOpen := "Database is not open"
  const CallbackRequired := "Sqlite 'Each' function requires a callback"
  const LastInsertRowid := "select last_insert_rowid()"
  const Changes := "select changes()"
  const UserVersion := "PRAGMA user_version"
  const SetUserVersion := "PRAGMA user_version = "

  /** The arguments handed to the native call (lines 205-209): `null`
      only when the parameters were strictly `undefined`.  An explicit
      `null`, as `execSQL`'s follow-up and `version` pass, is one `null`
      argument; an array gives one argument per element. */
  function QueryArgs<A>(params: Params<A>, toStr: A -> string): (a: Args)
    ensures a.None? <==> IsOmitted(params)
    ensures params == Single(NullParam) ==> a == Some([None])
    ensures params.Single? && params.p.Given? ==> a == Some([Some(toStr(params.p.v))])
    ensures params.List? ==> a.Some? && |a.value| == |params.ps|
    ensures params.List? ==> forall i :: 0 <= i < |params.ps| ==> (a.value[i].None? <==> params.ps[i].IsNullish())
  {
    if IsOmitted(params) then None else Some(ToStringArray(params, toStr))
  }

  /** Settle with `o`, reporting it to `target` too when that was supplied. */
  function Finish(supplied: bool, target: Target, o: Outcome, native: seq<NativeCall>): (run: Run)
    ensures run.outcome == o && run.native == native
    ensures supplied ==> |run.calls| == 1 && run.Delivered(target)
    ensures !supplied ==> run.calls == []
  {
    Run(o, if supplied then [Echo(target, o)] else [], native)
  }

  /** `get` (lines 189-241): the first row, projected with the engine the
      mode and the session defaults select; `null` when there is no row. */
  function Get<A>(env: Env<A>, s: Session, sql: string, params: Params<A>, hasCallback: bool, mode: Option<bv32>): (run: Run)
    ensures hasCallback ==> |run.calls| == 1 && run.Delivered(Callback)
    ensures !hasCallback ==> run.calls == []
    ensures !s.isOpen ==> run.outcome == Reject(Message(NotOpen)) && run.native == []
    ensures s.isOpen ==> 1 <= |run.native| && run.native[0] == RawQuery(sql, QueryArgs(params, env.toStr))
    ensures run.outcome.Resolve? ==> run.native == [RawQuery(sql, QueryArgs(params, env.toStr)), CloseCursor]
    ensures run.outcome.Resolve? ==> run.outcome.value.Null? || run.outcome.value.One?
  {
    if !s.isOpen then Finish(hasCallback, Callback, Reject(Message(NotOpen)), [])
    else
      var args := QueryArgs(params, env.toStr);
      var queried := [RawQuery(sql, args)];
      match env.query(sql, args)
      case Failed(e) => Finish(hasCallback, Callback, Reject(Message(e)), queried)
      case Cursor(rows) =>
        if |rows| == 0 then Finish(hasCallback, Callback, Resolve(Null), queried + [CloseCursor])
        else
          var p := Projected(ResolveEngine(mode, s.resultType, s.valuesType), rows[0]);
          match env.throws(p)
          // the engine threw before `cursor.close()`
          case Some(e) => Finish(hasCallback, Callback, Reject(Message(e)), queried)
          case None => Finish(hasCallback, Callback, Resolve(One(p)), queried + [CloseCursor])
  }

  /** How far the loops of `all` and `each` get: the rows projected with
      `GetResults`, and what the first throwing projection threw. */
  datatype Walk = Walk(done: seq<Projection>, failure: Option<string>)

  /** The loops of lines 346-350 and 406-410: every row in cursor order,
      projected with `GetResults`, stopping at the first that throws. */
  function WalkRows(throws: Projection -> Option<string>, rows: seq<Row>): (w: Walk)
    ensures |w.done| <= |rows|
    ensures forall i :: 0 <= i < |w.done| ==> w.done[i] == Projected(GetResults, rows[i])
    ensures forall i :: 0 <= i < |w.done| ==> throws(Projected(GetResults, rows[i])).None?
    ensures w.failure.None? <==> |w.done| == |rows|
    ensures w.failure.Some? ==> throws(Projected(GetResults, rows[|w.done|])) == w.failure
  {
    if rows == [] then Walk([], None)
    else
      var p := Projected(GetResults, rows[0]);
      match throws(p)
      case Some(e) => Walk([], Some(e))
      case None =>
        var rest := WalkRows(throws, rows[1..]);
        Walk([p] + rest.done, rest.failure)
  }

  /** `all`'s error path: without a callback, `reject` stands in for it
      (lines 308-311), so the promise is rejected with `null` first. */
  function AllFails(hasCallback: bool, e: string, native: seq<NativeCall>): (run: Run)
    ensures hasCallback ==> |run.calls| == 1 && run.Delivered(Callback) && run.outcome == Reject(Message(e))
    ensures !hasCallback ==> run.calls == [] && run.outcome == Reject(Nothing)
    ensures run.native == native
  {
    if hasCallback then Finish(true, Callback, Reject(Message(e)), native)
    else Run(Reject(Nothing), [], native)
  }

  /** `all` (lines 300-361): every row in cursor order, each projected with
      `GetResults`, delivered at once; `[]` when there is no row. */
  function All<A>(env: Env<A>, s: Session, sql: string, params: Params<A>, hasCallback: bool): (run: Run)
    ensures hasCallback ==> |run.calls| == 1 && run.Delivered(Callback)
    ensures !hasCallback ==> run.calls == []
    ensures !hasCallback && run.outcome.Reject? ==> run.outcome.reason == Nothing
    ensures !s.isOpen ==> run.outcome.Reject? && run.native == []
    ensures hasCallback && !s.isOpen ==> run.outcome == Reject(Message(NotOpen))
    ensures run.outcome.Resolve? ==> run.native == [RawQuery(sql, QueryArgs(params, env.toStr)), CloseCursor]
    ensures run.outcome.Resolve? ==> run.outcome.value.Many?
  {
    if !s.isOpen then AllFails(hasCallback, NotOpen, [])
    else
      var args := QueryArgs(params, env.toStr);
      var queried := [RawQuery(sql, args)];
      match env.query(sql, args)
      case Failed(e) => AllFails(hasCallback, e, queried)
      case Cursor(rows) =>
        if |rows| == 0 then Finish(hasCallback, Callback, Resolve(Many([])), queried + [CloseCursor])
        else
          var w := WalkRows(env.throws, rows);
          match w.failure
          case Some(e) => AllFails(hasCallback, e, queried)
          case None => Finish(hasCallback, Callback, Resolve(Many(w.done)), queried + [CloseCursor])
  }

  /** The row callback invocations for the rows projected so far. */
  function RowCalls(done: seq<Projection>): (calls: seq<Invocation>)
    ensures |calls| == |done|
    ensures forall i :: 0 <= i < |done| ==> calls[i] == Invocation(RowCallback, One(done[i]), Nothing)
  {
    seq(|done|, i requires 0 <= i < |done| => Invocation(RowCallback, One(done[i]), Nothing))
  }

  /** `each` (lines 363-421): the row callback once per row in cursor order,
      then `complete(count, null)`, resolving with the count.  The callback
      is mandatory.  There is no check that the session is open, but a
      session that is not open holds no live handle (`_db` is only set by a
      successful open, and `close` closes it), so its query throws.  Errors
      go to `complete` when supplied, else to the row callback. */
  function Each<A>(env: Env<A>, s: Session, sql: string, params: Params<A>, hasCallback: bool, hasComplete: bool): (run: Run)
    ensures !hasCallback ==> run == Run(Reject(Message(CallbackRequired)), [], [])
    ensures hasCallback && hasComplete ==> run.Delivered(Complete)
    ensures hasCallback && !hasComplete && run.outcome.Reject? ==> run.Delivered(RowCallback)
    ensures hasCallback ==> 1 <= |run.native| && run.native[0] == RawQuery(sql, QueryArgs(params, env.toStr))
    ensures hasCallback && !s.isOpen ==> run.outcome == Reject(Message(env.noHandle))
    ensures run.outcome.Resolve? ==> s.isOpen
    ensures run.outcome.Resolve? ==> run.native == [RawQuery(sql, QueryArgs(params, env.toStr)), CloseCursor]
    ensures run.outcome.Resolve? ==> run.outcome.value.Count?
  {
    if !hasCallback then Run(Reject(Message(CallbackRequired)), [], [])
    else
      var onError := if hasComplete then Complete else RowCallback;
      var args := QueryArgs(params, env.toStr);
      var queried := [RawQuery(sql, args)];
      match if s.isOpen then env.query(sql, args) else Failed(env.noHandle)
      case Failed(e) => Run(Reject(Message(e)), [Echo(onError, Reject(Message(e)))], queried)
      case Cursor(rows) =>
        if |rows| == 0 then Finish(hasComplete, Complete, Resolve(Count(0)), queried + [CloseCursor])
        else
          var w := WalkRows(env.throws, rows);
          match w.failure
          case Some(e) => Run(Reject(Message(e)), RowCalls(w.done) + [Echo(onError, Reject(Message(e)))], queried)
          case None =>
            var o := Resolve(Count(|rows|));
            Run(o, RowCalls(w.done) + (if hasComplete then [Echo(Complete, o)] else []), queried + [CloseCursor])
  }

  /** `data && data[0]`: `null` stays `null`, a row gives its first column;
      the caller never receives the whole row. */
  function FirstColumn(data: Value): (v: Value)
    ensures !v.One?
    ensures v.Null? <==> data.Null?
    ensures data.One? ==> v.Column? && v.source == data.row
  {
    if data.One? then Column(data.row) else data
  }

  /** The follow-up query of `execSQL` (lines 276-291): a `get` with `null`
      parameters, a callback, and mode RESULTSASARRAY|VALUESARENATIVE; its
      callback rejects on an error and resolves `data && data[0]` otherwise. */
  function FollowUp<A>(env: Env<A>, s: Session, sql: string, before: seq<NativeCall>): (run: Run)
    ensures run.calls == []
    ensures |run.native| >= |before| && run.native[..|before|] == before
    ensures s.isOpen ==> |run.native| > |before| && run.native[|before|] == RawQuery(sql, Some([None]))
  {
    var inner := Get(env, s, sql, Single(NullParam), true, Some(ResultsAsArray | ValuesAreNative));
    var reply := inner.calls[0];
    var o := if reply.error.Message? then Reject(reply.error) else Resolve(FirstColumn(reply.result));
    Run(o, [], before + inner.native)
  }

  /** `execSQL` (lines 243-298): runs the statement, then asks for the new
      row id after an INSERT, the number of changed rows after an UPDATE or
      DELETE, and resolves `null` after anything else.  No caller callback. */
  function ExecSql<A>(env: Env<A>, s: Session, sql: string, params: Params<A>): (run: Run)
    ensures run.calls == []
    ensures !s.isOpen ==> run == Run(Reject(Message(NotOpen)), [], [])
    ensures s.isOpen ==> 1 <= |run.native| && run.native[0] == Execute(sql, QueryArgs(params, env.toStr))
    ensures s.isOpen && env.exec(sql, QueryArgs(params, env.toStr)).Some? ==>
      run.outcome == Reject(Message(env.exec(sql, QueryArgs(params, env.toStr)).value)) && |run.native| == 1
    ensures s.isOpen && Classify(sql) == Plain ==> |run.native| == 1
  {
    if !s.isOpen then Run(Reject(Message(NotOpen)), [], [])
    else
      var kind := Classify(sql);
      var args := QueryArgs(params, env.toStr);
      var executed := [Execute(sql, args)];
      match env.exec(sql, args)
      case Some(e) => Run(Reject(Message(e)), [], executed)
      case None =>
        match kind
        case Plain => Run(Resolve(Null), [], executed)
        case Insert => FollowUp(env, s, LastInsertRowid, executed)
        case Change => FollowUp(env, s, Changes, executed)
  }

  /** The argument of `version`: a function, a number (its decimal text),
      or anything else. */
  datatype VersionArg = Function | Number(text: string) | NotANumber

  /** `data && parseInt(data[0], 10)`: `null` stays `null`, a row gives its
      parsed first column; the callback never receives the whole row. */
  function ParseFirst(data: Value): (v: Value)
    ensures !v.One?
    ensures v.Null? <==> data.Null?
    ensures data.One? ==> v.ParsedInt? && v.source == data.row
  {
    if data.One? then ParsedInt(data.row) else data
  }

  /** `version` (lines 113-123): with a function, reads `user_version` and
      calls it back with the parsed first column; with a number, sets
      `user_version`; otherwise reads it with nobody to tell.  The method
      returns `undefined`: the promise of the inner call is dropped. */
  function Version<A>(env: Env<A>, s: Session, arg: VersionArg): (run: Run)
    ensures run.outcome == Resolve(Undefined)
    ensures arg.Function? ==> |run.calls| == 1 && run.calls[0].target == Callback
    ensures arg.Function? ==> run.calls[0].error == Get(env, s, UserVersion, Single(NullParam), true, Some(ResultsAsArray)).calls[0].error
    ensures arg.Number? ==> run.calls == [] && (s.isOpen ==> 1 <= |run.native| && run.native[0] == Execute(SetUserVersion + arg.text, None))
    ensures arg.NotANumber? ==> run.calls == [] && (s.isOpen ==> 1 <= |run.native| && run.native[0] == RawQuery(UserVersion, None))
  {
    match arg
    case Function =>
      var inner := Get(env, s, UserVersion, Single(NullParam), true, Some(ResultsAsArray));
      var reply := inner.calls[0];
      Run(Resolve(Undefined), [Invocation(Callback, ParseFirst(reply.result), reply.error)], inner.native)
    case Number(text) =>
      var inner := ExecSql(env, s, SetUserVersion + text, Omitted());
      Run(Resolve(Undefined), inner.calls, inner.native)
    case NotANumber =>
      var inner := Get(env, s, UserVersion, Omitted(), false, Some(ResultsAsArray));
      Run(Resolve(Undefined), inner.calls, inner.native)
  }
}

=== FILE: executor_lemmas.dfy ===
/** Properties of the statement entry points that relate a call to the
    rows its cursor holds (src/sqlite.android.ts:189-421). */
module ExecutorLemmas {
  import opened Maybe
  import opened Modes
  import opened Externals
  import opened Coercion
  import opened Keywords
  import opened Lifecycle
  import opened Executor

  /** On a closed session `get` rejects with "Database is not open" and
      makes no native call. */
  lemma GetRejectsWhenClosed<A>(env: Env<A>, s: Session, sql: string, params: Params<A>, hasCallback: bool, mode: Option<bv32>)
    requires !s.isOpen
    ensures Get(env, s, sql, params, hasCallback, mode)
         == Run(Reject(Message(NotOpen)), if hasCallback then [Invocation(Callback, Null, Message(NotOpen))] else [], [])
  {
  }

  /** On a closed session `all` makes no native call and rejects; without a
      callback it rejects with `null`, because `reject` stands in for the
      callback and is called with `(null, message)` first. */
  lemma AllRejectsWhenClosed<A>(env: Env<A>, s: Session, sql: string, params: Params<A>, hasCallback: bool)
    requires !s.isOpen
    ensures All(env, s, sql, params, hasCallback)
         == if hasCallback then Run(Reject(Message(NotOpen)), [Invocation(Callback, Null, Message(NotOpen))], [])
            else Run(Reject(Nothing), [], [])
  {
  }

  /** On a closed session `execSQL` rejects with "Database is not open"
      without running anything. */
  lemma ExecSqlRejectsWhenClosed<A>(env: Env<A>, s: Session, sql: string, params: Params<A>)
    requires !s.isOpen
    ensures ExecSql(env, s, sql, params) == Run(Reject(Message(NotOpen)), [], [])
  {
  }

  /** `each` has no open check, but on a session that is not open its
      query finds no live handle and throws: it never resolves, reports
      `(null, error)` once to `complete` or else the row callback, and the
      failing query is its only native call. */
  lemma EachFailsWhenClosed<A>(env: Env<A>, s: Session, sql: string, params: Params<A>, hasComplete: bool)
    requires !s.isOpen
    ensures Each(env, s, sql, params, true, hasComplete)
         == Run(Reject(Message(env.noHandle)),
                [Invocation(if hasComplete then Complete else RowCallback, Null, Message(env.noHandle))],
                [RawQuery(sql, QueryArgs(params, env.toStr))])
  {
  }

  /** A cursor without rows: `get` closes it and gives `null`, calling
      back `(null, null)` when there is a callback. */
  lemma GetZeroRows<A>(env: Env<A>, s: Session, sql: string, params: Params<A>, hasCallback: bool, mode: Option<bv32>)
    requires s.isOpen
    requires env.query(sql, QueryArgs(params, env.toStr)) == Cursor([])
    ensures Get(env, s, sql, params, hasCallback, mode)
         == Run(Resolve(Null), if hasCallback then [Invocation(Callback, Null, Nothing)] else [],
                [RawQuery(sql, QueryArgs(params, env.toStr)), CloseCursor])
  {
  }

  /** A cursor without rows: `all` closes it and gives `[]`, not `null`. */
  lemma AllZeroRows<A>(env: Env<A>, s: Session, sql: string, params: Params<A>, hasCallback: bool)
    requires s.isOpen
    requires env.query(sql, QueryArgs(params, env.toStr)) == Cursor([])
    ensures All(env, s, sql, params, hasCallback)
         == Run(Resolve(Many([])), if hasCallback then [Invocation(Callback, Many([]), Nothing)] else [],
                [RawQuery(sql, QueryArgs(params, env.toStr)), CloseCursor])
  {
  }

  /** A cursor without rows: `each` closes it, calls `complete(0, null)`
      when supplied, never calls the row callback, and gives 0. */
  lemma EachZeroRows<A>(env: Env<A>, s: Session, sql: string, params: Params<A>, hasComplete: bool)
    requires s.isOpen
    requires env.query(sql, QueryArgs(params, env.toStr)) == Cursor([])
    ensures Each(env, s, sql, params, true, hasComplete)
         == Run(Resolve(Count(0)), if hasComplete then [Invocation(Complete, Count(0), Nothing)] else [],
                [RawQuery(sql, QueryArgs(params, env.toStr)), CloseCursor])
  {
  }

  /** `get` on a non-empty cursor projects the first row, and only that
      row, with the engine the mode and session defaults select. */
  lemma GetProjectsFirstRow<A>(env: Env<A>, s: Session, sql: string, params: Params<A>, hasCallback: bool, mode: Option<bv32>, rows: seq<Row>)
    requires s.isOpen
    requires env.query(sql, QueryArgs(params, env.toStr)) == Cursor(rows) && |rows| > 0
    requires env.throws(Projected(ResolveEngine(mode, s.resultType, s.valuesType), rows[0])).None?
    ensures Get(env, s, sql, params, hasCallback, mode).outcome
         == Resolve(One(Projected(ResolveEngine(mode, s.resultType, s.valuesType), rows[0])))
  {
  }

  /** When the engine throws on the first row, `get` rejects with what it
      threw and the cursor is left open. */
  lemma GetProjectionThrows<A>(env: Env<A>, s: Session, sql: string, params: Params<A>, hasCallback: bool, mode: Option<bv32>, rows: seq<Row>, e: string)
    requires s.isOpen
    requires env.query(sql, QueryArgs(params, env.toStr)) == Cursor(rows) && |rows| > 0
    requires env.throws(Projected(ResolveEngine(mode, s.resultType, s.valuesType), rows[0])) == Some(e)
    ensures Get(env, s, sql, params, hasCallback, mode).outcome == Reject(Message(e))
    ensures Get(env, s, sql, params, hasCallback, mode).native == [RawQuery(sql, QueryArgs(params, env.toStr))]
  {
  }

  /** `all` resolves exactly when no row's projection throws, and then with
      one `GetResults` projection per row, in cursor order. */
  lemma AllCollectsEveryRow<A>(env: Env<A>, s: Session, sql: string, params: Params<A>, hasCallback: bool, rows: seq<Row>)
    requires s.isOpen
    requires env.query(sql, QueryArgs(params, env.toStr)) == Cursor(rows)
    ensures All(env, s, sql, params, hasCallback).outcome.Resolve?
        <==> forall i :: 0 <= i < |rows| ==> env.throws(Projected(GetResults, rows[i])).None?
    ensures All(env, s, sql, params, hasCallback).outcome.Resolve? ==>
      var ps := All(env, s, sql, params, hasCallback).outcome.value.rows;
      |ps| == |rows| && forall i :: 0 <= i < |rows| ==> ps[i] == Projected(GetResults, rows[i])
  {
    if |rows| > 0 {
      var w := WalkRows(env.throws, rows);
      if w.failure.Some? {
        assert env.throws(Projected(GetResults, rows[|w.done|])).Some?;
      }
    }
  }

  /** `each` on rows that all project: the row callback once per row in
      cursor order, then `complete(count, null)` if supplied, resolving
      with the count; the cursor is closed. */
  lemma EachCallsBackPerRow<A>(env: Env<A>, s: Session, sql: string, params: Params<A>, hasComplete: bool, rows: seq<Row>)
    requires s.isOpen
    requires env.query(sql, QueryArgs(params, env.toStr)) == Cursor(rows)
    requires forall i :: 0 <= i < |rows| ==> env.throws(Projected(GetResults, rows[i])).None?
    ensures Each(env, s, sql, params, true, hasComplete).outcome == Resolve(Count(|rows|))
    ensures |Each(env, s, sql, params, true, hasComplete).calls| == |rows| + (if hasComplete then 1 else 0)
    ensures forall i :: 0 <= i < |rows| ==>
      Each(env, s, sql, params, true, hasComplete).calls[i] == Invocation(RowCallback, One(Projected(GetResults, rows[i])), Nothing)
    ensures hasComplete ==>
      Each(env, s, sql, params, true, hasComplete).calls[|rows|] == Invocation(Complete, Count(|rows|), Nothing)
    ensures Each(env, s, sql, params, true, hasComplete).native == [RawQuery(sql, QueryArgs(params, env.toStr)), CloseCursor]
  {
    if |rows| > 0 {
      var w := WalkRows(env.throws, rows);
      assert w.failure.None?;
    }
  }

  /** `each` stops at the first row whose projection throws: the rows
      before it have been called back, the error goes to `complete` if
      supplied and to the row callback otherwise, and the cursor is left open. */
  lemma EachStopsAtFirstFailure<A>(env: Env<A>, s: Session, sql: string, params: Params<A>, hasComplete: bool, rows: seq<Row>, k: int, e: string)
    requires s.isOpen
    requires env.query(sql, QueryArgs(params, env.toStr)) == Cursor(rows)
    requires 0 <= k < |rows|
    requires forall i :: 0 <= i < k ==> env.throws(Projected(GetResults, rows[i])).None?
    requires env.throws(Projected(GetResults, rows[k])) == Some(e)
    ensures Each(env, s, sql, params, true, hasComplete).outcome == Reject(Message(e))
    ensures |Each(env, s, sql, params, true, hasComplete).calls| == k + 1
    ensures forall i :: 0 <= i < k ==>
      Each(env, s, sql, params, true, hasComplete).calls[i] == Invocation(RowCallback, One(Projected(GetResults, rows[i])), Nothing)
    ensures Each(env, s, sql, params, true, hasComplete).calls[k]
         == Invocation(if hasComplete then Complete else RowCallback, Null, Message(e))
    ensures Each(env, s, sql, params, true, hasComplete).native == [RawQuery(sql, QueryArgs(params, env.toStr))]
  {
    var w := WalkRows(env.throws, rows);
    assert |w.done| == k;
  }

  /** After a successful INSERT, UPDATE or DELETE, `execSQL` issues the
      matching follow-up query with a single `null` parameter. */
  lemma ExecSqlFollowUpQuery<A>(env: Env<A>, s: Session, sql: string, params: Params<A>)
    requires s.isOpen
    requires env.exec(sql, QueryArgs(params, env.toStr)).None?
    requires Classify(sql) != Plain
    ensures |ExecSql(env, s, sql, params).native| >= 2
    ensures ExecSql(env, s, sql, params).native[1]
         == RawQuery(if Classify(sql) == Insert then LastInsertRowid else Changes, Some([None]))
  {
  }

  /** The follow-up's first column is what `execSQL` resolves, projected
      as an array of native values; no row gives `null`, and a failing
      follow-up rejects with its error. */
  lemma ExecSqlResolvesFirstColumn<A>(env: Env<A>, s: Session, sql: string, params: Params<A>, rows: seq<Row>)
    requires s.isOpen
    requires env.exec(sql, QueryArgs(params, env.toStr)).None?
    requires Classify(sql) != Plain
    requires env.query(if Classify(sql) == Insert then LastInsertRowid else Changes, Some([None])) == Cursor(rows)
    requires |rows| > 0 ==> env.throws(Projected(RowArrayNative, rows[0])).None?
    ensures |rows| > 0 ==> ExecSql(env, s, sql, params).outcome == Resolve(Column(Projected(RowArrayNative, rows[0])))
    ensures |rows| == 0 ==> ExecSql(env, s, sql, params).outcome == Resolve(Null)
  {
    FollowUpModeGivesArrayNative(s.resultType, s.valuesType);
  }

  /** A follow-up query that throws rejects `execSQL` with its error. */
  lemma ExecSqlFollowUpFails<A>(env: Env<A>, s: Session, sql: string, params: Params<A>, e: string)
    requires s.isOpen
    requires env.exec(sql, QueryArgs(params, env.toStr)).None?
    requires Classify(sql) != Plain
    requires env.query(if Classify(sql) == Insert then LastInsertRowid else Changes, Some([None])) == Failed(e)
    ensures ExecSql(env, s, sql, params).outcome == Reject(Message(e))
  {
  }

  /** A follow-up whose projection throws also rejects `execSQL`: the nested
      `get` hands the error to its callback (line 233), which rejects. */
  lemma ExecSqlFollowUpProjectionFails<A>(env: Env<A>, s: Session, sql: string, params: Params<A>, rows: seq<Row>, e: string)
    requires s.isOpen
    requires env.exec(sql, QueryArgs(params, env.toStr)).None?
    requires Classify(sql) != Plain
    requires env.query(if Classify(sql) == Insert then LastInsertRowid else Changes, Some([None])) == Cursor(rows)
    requires |rows| > 0 && env.throws(Projected(RowArrayNative, rows[0])) == Some(e)
    ensures ExecSql(env, s, sql, params).outcome == Reject(Message(e))
  {
    FollowUpModeGivesArrayNative(s.resultType, s.valuesType);
  }

  /** As written, `openDatabase` never opens a session, so every statement
      entry point that checks the flag rejects with "Database is not open". */
  lemma NothingRunsAsWritten<A>(env: Env<A>, e: string, s: Session, sql: string, params: Params<A>)
    requires !s.isOpen
    ensures ExecSql(env, OpenDatabaseAsWritten(e, s).session, sql, params) == Run(Reject(Message(NotOpen)), [], [])
    ensures Get(env, OpenDatabaseAsWritten(e, s).session, sql, params, false, None).outcome == Reject(Message(NotOpen))
  {
  }

  /** Any other statement resolves `null` after running, with no follow-up. */
  lemma ExecSqlPlainResolvesNull<A>(env: Env<A>, s: Session, sql: string, params: Params<A>)
    requires s.isOpen
    requires env.exec(sql, QueryArgs(params, env.toStr)).None?
    requires Classify(sql) == Plain
    ensures ExecSql(env, s, sql, params) == Run(Resolve(Null), [], [Execute(sql, QueryArgs(params, env.toStr))])
  {
  }

  /** `version` with a number runs `PRAGMA user_version = n` and nothing
      else: the statement is not an INSERT, UPDATE or DELETE, so `execSQL`
      makes no follow-up query.  `version` itself resolves nothing. */
  lemma VersionSetsWithoutFollowUp<A>(env: Env<A>, s: Session, text: string)
    requires s.isOpen
    ensures Version(env, s, Number(text)).native == [Execute(SetUserVersion + text, None)]
    ensures Version(env, s, Number(text)).calls == []
  {
    var sql := SetUserVersion + text;
    assert sql[0] == 'P';
    TrimKeepsBetween(sql, 0, 0);
    assert Lower(Prefix(Trim(sql), 7))[0] == 'p';
    assert Classify(sql) == Plain;
  }

  /** `version` with a function reads `user_version` as an array of strings
      (the bare RESULTSASARRAY mode, as written) and passes the parsed first
      column to the function. */
  lemma VersionCallsBackParsed<A>(env: Env<A>, s: Session, rows: seq<Row>)
    requires s.isOpen
    requires env.query(UserVersion, Some([None])) == Cursor(rows) && |rows| > 0
    requires env.throws(Projected(RowArrayString, rows[0])).None?
    ensures Version(env, s, Function).calls == [Invocation(Callback, ParsedInt(Projected(RowArrayString, rows[0])), Nothing)]
  {
    ArrayOnlyModeGivesStrings(s.resultType, s.valuesType);
  }
}

=== FILE: externals.dfy ===
/**
 * What the statement executor consumes without defining it: the native
 * SQLiteDatabase handle and its cursors, the DbResult projections, and the
 * caller-visible shapes of a call (promise outcome, callback invocations).
 */
module Externals {
  import opened Maybe
  import opened Modes

  /** One column value as the native cursor holds it. */
  datatype Cell = SqlNull | SqlInteger(i: int) | SqlText(t: string) | SqlBlob(b: seq<bv8>)

  /** One result row: column names and values, in column order. */
  datatype Row = Row(names: seq<string>, cells: seq<Cell>)

  /** An engine applied to a row.  DbResult's projections are uninterpreted,
      so the projected row is kept as the application itself. */
  datatype Projection = Projected(engine: Engine, row: Row)

  /** Bind arguments as handed to `rawQuery`/`execSQL`: absent (JavaScript
      `null`) or a list of optional strings. */
  type Args = Option<seq<Option<string>>>

  /** What `rawQuery` gives: a cursor over finitely many rows (its
      `getCount()` is the number of rows), or the message of what it threw. */
  datatype QueryResult = Cursor(rows: seq<Row>) | Failed(error: string)

  /** The native calls a session makes, in order. */
  datatype NativeCall =
    | CreateInMemory(flags: bv32)
    | OpenFile(path: string, flags: bv32)
    | RawQuery(sql: string, args: Args)
    | Execute(sql: string, args: Args)
    | CloseCursor
    | CloseDb

  /** A rejection reason or a callback's error argument: `null`, or a message. */
  datatype Reason = Nothing | Message(text: string)

  /** The values a call hands back to its caller. */
  datatype Value =
    | Null
    | Undefined
    | One(row: Projection)                   // one projected row
    | Many(rows: seq<Projection>)            // every projected row, in cursor order
    | Count(n: nat)                          // a number of rows
    | Column(source: Projection)             // `data[0]` of a projected row
    | ParsedInt(source: Projection)          // `parseInt(data[0], 10)` of a projected row
    | Instance                               // the session object itself

  /** How the promise a call returns is settled. */
  datatype Outcome = Resolve(value: Value) | Reject(reason: Reason)

  /** The caller-supplied functions a call may invoke. */
  datatype Target = Callback | RowCallback | Complete

  /** One invocation `target(result, error)`. */
  datatype Invocation = Invocation(target: Target, result: Value, error: Reason)

  /** The invocation that reports `o` to `target`: `(value, null)` for a
      resolution, `(null, reason)` for a rejection. */
  function Echo(target: Target, o: Outcome): (c: Invocation)
    ensures c.target == target
    ensures o.Resolve? ==> c.result == o.value && c.error == Nothing
    ensures o.Reject? ==> c.result == Null && c.error == o.reason
  {
    match o
    case Resolve(v) => Invocation(target, v, Nothing)
    case Reject(e) => Invocation(target, Null, e)
  }

  /** Everything observable about one call: how its promise settles, the
      caller's functions it invoked, and the native calls it made. */
  datatype Run = Run(outcome: Outcome, calls: seq<Invocation>, native: seq<NativeCall>)
  {
    /** The last invocation reports to `target` exactly what the promise
        settles with: callback and promise agree. */
    predicate Delivered(target: Target) {
      |calls| > 0 && calls[|calls| - 1] == Echo(target, outcome)
    }
  }

  /**
   * The collaborators, as oracles: what `rawQuery` and `execSQL` answer for
   * a statement and its arguments, which projections throw (and with what
   * message), what a query throws when the session holds no live handle
   * (never opened, or closed), and JavaScript's `toString` on a bind
   * parameter.
   */
  datatype Env<!A> = Env(
    query: (string, Args) -> QueryResult,
    noHandle: string,
    exec: (string, Args) -> Option<string>,
    throws: Projection -> Option<string>,
    toStr: A -> string)
}

=== FILE: keywords.dfy ===
/**
 * Statement classification in `execSQL` (src/sqlite.android.ts:252-258):
 * `sql.trim().substr(0, 7).toLowerCase()` compared with the three write
 * keywords.
 *
 * `trim` strips ECMAScript white space and line terminators from both ends.
 * `toLowerCase` is folded to ASCII: no character outside A-Z lower-cases to
 * a single character of "insert ", "update " or "delete ", so the
 * classification is the same.
 */
module Keywords {

  /** ECMAScript WhiteSpace and LineTerminator code points. */
  predicate IsWhitespace(c: char) {
    || c == '\t' || c == '\n' || c == '\U{B}' || c == '\U{C}' || c == '\r' || c == ' '
    || c == '\U{A0}' || c == '\U{1680}' || ('\U{2000}' <= c <= '\U{200A}')
    || c == '\U{2028}' || c == '\U{2029}' || c == '\U{202F}' || c == '\U{205F}'
    || c == '\U{3000}' || c == '\U{FEFF}'
  }

  /** Every character of `s[lo..hi]` is white space. */
  predicate Blank(s: string, lo: int, hi: int)
    requires 0 <= lo <= hi <= |s|
  {
    forall m :: lo <= m < hi ==> IsWhitespace(s[m])
  }

  /** The index of the first non-blank character at or after `k`, or `|s|`. */
  function SkipForward(s: string, k: nat): (r: nat)
    requires k <= |s|
    ensures k <= r <= |s| && Blank(s, k, r)
    ensures r == |s| || !IsWhitespace(s[r])
    decreases |s| - k
  {
    if k < |s| && IsWhitespace(s[k]) then SkipForward(s, k + 1) else k
  }

  /** The index just past the last non-blank character before `k`, or 0. */
  function SkipBackward(s: string, k: nat): (r: nat)
    requires k <= |s|
    ensures r <= k && Blank(s, r, k)
    ensures r == 0 || !IsWhitespace(s[r - 1])
  {
    if k > 0 && IsWhitespace(s[k - 1]) then SkipBackward(s, k - 1) else k
  }

  /** The string without its leading white space. */
  function TrimStart(s: string): (r: string)
    ensures |r| <= |s| && r == s[|s| - |r|..]
    ensures Blank(s, 0, |s| - |r|)
    ensures r == [] || !IsWhitespace(r[0])
  {
    s[SkipForward(s, 0)..]
  }

  /** The string without its trailing white space. */
  function TrimEnd(s: string): (r: string)
    ensures |r| <= |s| && r == s[..|r|]
    ensures Blank(s, |r|, |s|)
    ensures r == [] || !IsWhitespace(r[|r| - 1])
  {
    s[..SkipBackward(s, |s|)]
  }

  /** JavaScript's `String.prototype.trim`: empty exactly for an all-blank
      string, otherwise starting and ending with a non-blank character. */
  function Trim(s: string): (r: string)
    ensures |r| <= |s|
    ensures r == [] <==> Blank(s, 0, |s|)
    ensures r != [] ==> !IsWhitespace(r[0]) && !IsWhitespace(r[|r| - 1])
  {
    TrimEnd(TrimStart(s))
  }

  /** `s.substr(0, n)` over code points: the first `n`, or all of a shorter string. */
  function Prefix(s: string, n: nat): (r: string)
    ensures |r| == if |s| <= n then |s| else n
    ensures r == s[..|r|]
  {
    if |s| <= n then s else s[..n]
  }

  /** One character of `toLowerCase`, folded to ASCII: A-Z map to a-z at
      the same offset, every other character is kept. */
  function LowerChar(c: char): (r: char)
    ensures !('A' <= r <= 'Z')
    ensures 'A' <= c <= 'Z' ==> 'a' <= r <= 'z' && r as int - 'a' as int == c as int - 'A' as int
    ensures !('A' <= c <= 'Z') ==> r == c
  {
    if 'A' <= c <= 'Z' then (c as int - 'A' as int + 'a' as int) as char else c
  }

  /** `toLowerCase`, folded to ASCII. */
  function Lower(s: string): (r: string)
    ensures |r| == |s|
    ensures forall i :: 0 <= i < |s| && 'A' <= s[i] <= 'Z' ==>
      'a' <= r[i] <= 'z' && r[i] as int - 'a' as int == s[i] as int - 'A' as int
    ensures forall i :: 0 <= i < |s| && !('A' <= s[i] <= 'Z') ==> r[i] == s[i]
  {
    seq(|s|, i requires 0 <= i < |s| => LowerChar(s[i]))
  }

  /** The follow-up a statement needs: none (flags 0), the new row id
      (flags 1) or the number of changed rows (flags 2). */
  datatype Kind = Plain | Insert | Change

  /** Lines 252-258.  A statement needing a follow-up has more than seven
      characters once trimmed, the seventh being the keyword's blank. */
  function Classify(sql: string): (k: Kind)
    ensures k != Plain ==> |Trim(sql)| > 7 && Trim(sql)[6] == ' '
  {
    var head := Lower(Prefix(Trim(sql), 7));
    if head == "insert " then Insert
    else if head == "update " || head == "delete " then Change
    else Plain
  }

  /**
   * A reference reading of the classification: after nothing but white
   * space, the next |kw| characters spell `kw` ignoring case, and something
   * other than white space follows them (the keyword's own trailing blank
   * would otherwise be trimmed away).
   */
  ghost predicate KeywordAt(sql: string, kw: string) {
    exists i :: 0 <= i <= i + |kw| <= |sql|
      && Blank(sql, 0, i)
      && Lower(sql[i..i + |kw|]) == kw
      && !Blank(sql, i + |kw|, |sql|)
  }

  /** The shape the three write keywords share: seven characters, a
      lower-case first letter, a trailing blank. */
  predicate IsKeyword(kw: string) {
    |kw| == 7 && 'a' <= kw[0] <= 'z' && kw[6] == ' '
  }

  /** Trimming twice is trimming once. */
  lemma TrimIdempotent(s: string)
    ensures Trim(Trim(s)) == Trim(s)
  {
    var r := Trim(s);
    if r != [] {
      TrimKeepsBetween(r, 0, |r| - 1);
    }
  }

  /** Lower-casing twice is lower-casing once. */
  lemma LowerIdempotent(s: string)
    ensures Lower(Lower(s)) == Lower(s)
  {
  }

  /** Leading white space ending at a non-blank `s[i]` is exactly what
      `TrimStart` removes. */
  lemma TrimStartAt(s: string, i: int)
    requires 0 <= i < |s| && Blank(s, 0, i) && !IsWhitespace(s[i])
    ensures TrimStart(s) == s[i..]
  {
  }

  /** `TrimEnd` keeps the prefix up to a non-blank character unchanged. */
  lemma TrimEndPrefix(t: string, k: int)
    requires 0 <= k < |t| && !IsWhitespace(t[k])
    ensures |TrimEnd(t)| > k && TrimEnd(t)[..k + 1] == t[..k + 1]
  {
  }

  /** Trimming a string whose first non-blank character is `s[i]` keeps
      everything from `s[i]` up to any later non-blank `s[j]`. */
  lemma TrimKeepsBetween(s: string, i: int, j: int)
    requires 0 <= i <= j < |s|
    requires Blank(s, 0, i) && !IsWhitespace(s[i]) && !IsWhitespace(s[j])
    ensures |Trim(s)| > j - i && Trim(s)[..j - i + 1] == s[i..j + 1]
  {
    TrimStartAt(s, i);
    TrimEndKeeps(s, i, j);
  }

  /** `TrimEnd` of a suffix `s[i..]` keeps it up to a non-blank `s[j]`. */
  lemma TrimEndKeeps(s: string, i: int, j: int)
    requires 0 <= i <= j < |s| && !IsWhitespace(s[j])
    ensures |TrimEnd(s[i..])| > j - i && TrimEnd(s[i..])[..j - i + 1] == s[i..j + 1]
  {
    var t := s[i..];
    assert t[j - i] == s[j];
    TrimEndPrefix(t, j - i);
    assert t[..j - i + 1] == s[i..j + 1];
  }

  /** A head equal to a keyword means the keyword appears. */
  lemma HeadIsKeywordOnlyIf(sql: string, kw: string)
    requires IsKeyword(kw)
    requires Lower(Prefix(Trim(sql), 7)) == kw
    ensures KeywordAt(sql, kw)
  {
    var n := SkipForward(sql, 0);
    var t := TrimStart(sql);
    var u := TrimEnd(t);
    var h := Prefix(u, 7);
    assert |h| == 7 && h == u[..7];
    assert LowerChar(u[6]) == kw[6];
    assert |u| > 7;
    assert t == sql[n..];
    assert u[..7] == t[..7] == sql[n..n + 7];
    assert sql[n + |u| - 1] == u[|u| - 1];
  }

  /** A keyword that appears is what `Classify` sees at the head. */
  lemma HeadIsKeywordIf(sql: string, kw: string, i: int)
    requires IsKeyword(kw)
    requires 0 <= i <= i + 7 <= |sql|
    requires Blank(sql, 0, i)
    requires Lower(sql[i..i + 7]) == kw
    requires !Blank(sql, i + 7, |sql|)
    ensures Lower(Prefix(Trim(sql), 7)) == kw
  {
    assert LowerChar(sql[i]) == kw[0];
    var j :| i + 7 <= j < |sql| && !IsWhitespace(sql[j]);
    TrimKeepsBetween(sql, i, j);
    assert Trim(sql)[..7] == Trim(sql)[..j - i + 1][..7];
  }

  /** The head `Classify` inspects equals a keyword exactly when the
      keyword appears in the sense of `KeywordAt`. */
  lemma HeadIsKeyword(sql: string, kw: string)
    requires IsKeyword(kw)
    ensures Lower(Prefix(Trim(sql), 7)) == kw <==> KeywordAt(sql, kw)
  {
    if Lower(Prefix(Trim(sql), 7)) == kw {
      HeadIsKeywordOnlyIf(sql, kw);
    }
    if KeywordAt(sql, kw) {
      var i :| 0 <= i <= i + |kw| <= |sql|
        && Blank(sql, 0, i)
        && Lower(sql[i..i + |kw|]) == kw
        && !Blank(sql, i + |kw|, |sql|);
      HeadIsKeywordIf(sql, kw, i);
    }
  }

  /** `Classify` in terms of the reference reading, both directions. */
  lemma ClassifyMatchesKeywords(sql: string)
    ensures Classify(sql) == Insert <==> KeywordAt(sql, "insert ")
    ensures Classify(sql) == Change <==> KeywordAt(sql, "update ") || KeywordAt(sql, "delete ")
    ensures Classify(sql) == Plain <==>
      !KeywordAt(sql, "insert ") && !KeywordAt(sql, "update ") && !KeywordAt(sql, "delete ")
  {
    HeadIsKeyword(sql, "insert ");
    HeadIsKeyword(sql, "update ");
    HeadIsKeyword(sql, "delete ");
  }

  /** Classification of three typical statements. */
  lemma ClassifyInsertExample()
    ensures Classify("INSERT INTO t(x) VALUES('a')") == Insert
  {
    var sql := "INSERT INTO t(x) VALUES('a')";
    assert sql[7] == 'I';
    HeadIsKeywordIf(sql, "insert ", 0);
  }

  lemma ClassifyUpdateExample()
    ensures Classify("  update t SET x='b'") == Change
  {
    var sql := "  update t SET x='b'";
    assert sql[9] == 't';
    HeadIsKeywordIf(sql, "update ", 2);
  }

  lemma ClassifyCreateExample()
    ensures Classify("CREATE TABLE t(x)") == Plain
  {
    var sql := "CREATE TABLE t(x)";
    TrimKeepsBetween(sql, 0, 0);
    assert Lower(Prefix(Trim(sql), 7))[0] == 'c';
  }

  /** A bare keyword is trimmed to six characters and needs no follow-up. */
  lemma ClassifyBareKeyword()
    ensures Classify("insert ") == Plain
  {
    assert SkipBackward("insert ", 7) == 6;
    assert Trim("insert ") == "insert";
  }
}

=== FILE: lifecycle.dfy ===
/**
 * Session state of the `Sqlite` class: the single static instance, the
 * open flag, the two projection defaults and their setters, and
 * `openDatabase`/`close` (src/sqlite.android.ts).
 */
module Lifecycle {
  import opened Maybe
  import opened Modes
  import opened Externals

  /** The name that selects an in-memory database. */
  const MemoryName := ":memory:"

  /** SQLiteDatabase.CREATE_IF_NECESSARY, or-ed into the flags of a file database. */
  const CreateIfNecessary: bv32 := 0x1000_0000

  const AlreadyClosed := "Database is already closed"

  /** The constructor's options: `androidFlags` when supplied. */
  datatype Options = Options(androidFlags: Option<bv32>)

  /** One `Sqlite` object.  `name` is the name as passed to the constructor. */
  datatype Session = Session(name: string, isOpen: bool, resultType: bv32, valuesType: bv32, options: Options)
  {
    /** Both defaults hold a recognised constant of their axis. */
    predicate Valid() {
      IsRowShape(resultType) && IsValueShape(valuesType)
    }
  }

  /** A constructor call: the object it returns, and `Sqlite.self` afterwards. */
  datatype Constructed = Constructed(instance: Session, registry: Option<Session>)

  /** Names for which the constructor resolves a path and creates its folder. */
  predicate IsFileName(name: string) {
    name != "" && name != MemoryName
  }

  /**
   * The constructor (lines 15-51).  An existing instance is returned
   * whatever name is passed.  Otherwise a closed session with array/native
   * defaults is built; `folderCreated` says whether creating the database
   * folder of a file name succeeded.  When it fails, the constructor's
   * `return this._error(...)` returns `null`, which a JavaScript
   * constructor ignores: the caller still gets the new object, but it is
   * not registered.
   */
  function Construct(registry: Option<Session>, name: string, options: Options, folderCreated: bool): (c: Constructed)
    ensures registry.Some? ==> c == Constructed(registry.value, registry)
    ensures registry.None? ==> c.instance.name == name && !c.instance.isOpen && c.instance.options == options
    ensures registry.None? ==> c.instance.resultType == ResultsAsArray && c.instance.valuesType == ValuesAreNative
    ensures registry.None? ==> (c.registry == Some(c.instance) <==> !IsFileName(name) || folderCreated)
    ensures registry.None? ==> (c.registry.None? <==> IsFileName(name) && !folderCreated)
  {
    if registry.Some? then Constructed(registry.value, registry)
    else
      var made := Session(name, false, ResultsAsArray, ValuesAreNative, options);
      if IsFileName(name) && !folderCreated then Constructed(made, None)
      else Constructed(made, Some(made))
  }

  /** Constructing twice gives the same session, whatever the second name. */
  lemma ConstructTwiceSameInstance(name1: string, name2: string, o1: Options, o2: Options, ok1: bool, ok2: bool)
    requires !IsFileName(name1) || ok1
    ensures Construct(Construct(None, name1, o1, ok1).registry, name2, o2, ok2).instance
         == Construct(None, name1, o1, ok1).instance
  {
  }

  /**
   * The constructor as written.  `var java = java || {}` (line 37) declares
   * a function-local `java`, hoisted, so the right-hand `java` is that
   * local, still undefined, and not the platform's global: `java` becomes
   * `{}` and `new java.io.File(path)` throws for every file name.  The
   * folder step therefore always fails, and line 46 returns before the
   * instance is registered.  `Construct` is the intended behaviour.
   */
  function ConstructAsWritten(registry: Option<Session>, name: string, options: Options): (c: Constructed)
    ensures c.instance == Construct(registry, name, options, true).instance
    ensures registry.None? ==> (c.registry == Some(c.instance) <==> !IsFileName(name))
    ensures registry.None? ==> (c.registry.Some? <==> !IsFileName(name))
    ensures registry.Some? ==> c.registry == registry
  {
    Construct(registry, name, options, false)
  }

  /** The discrepancy: a first construction with a file name is never
      registered as written, while the intended constructor registers it
      once its folder exists.  A second construction then builds a new
      session instead of returning the first. */
  lemma FileDatabaseNeverRegistered(name: string, options: Options, name2: string, options2: Options, ok: bool)
    requires IsFileName(name)
    ensures ConstructAsWritten(None, name, options).registry.None?
    ensures Construct(None, name, options, true).registry == Some(Construct(None, name, options, true).instance)
    ensures Construct(ConstructAsWritten(None, name, options).registry, name2, options2, ok).instance
         == Construct(None, name2, options2, ok).instance
  {
  }

  /** A setter's result: the new state and the value the call returns. */
  datatype Setting = Setting(session: Session, reported: bv32)

  /** `resultType(type)` (lines 150-160): only RESULTSASARRAY and
      RESULTSASOBJECT change the default; the current default is returned. */
  function SetResultType(s: Session, t: bv32): (r: Setting)
    ensures r.reported == r.session.resultType
    ensures IsRowShape(t) ==> r.session == s.(resultType := t)
    ensures !IsRowShape(t) ==> r.session == s
  {
    if t == ResultsAsArray || t == ResultsAsObject then Setting(s.(resultType := t), t)
    else Setting(s, s.resultType)
  }

  /** `valueType(type)` as written (lines 162-172): only VALUESARENATIVE
      and VALUESARESTRINGS change the default, and the call returns the
      row-shape default, not the value-shape one. */
  function SetValueType(s: Session, t: bv32): (r: Setting)
    ensures r.reported == s.resultType
    ensures IsValueShape(t) ==> r.session == s.(valuesType := t)
    ensures !IsValueShape(t) ==> r.session == s
  {
    if t == ValuesAreNative || t == ValuesAreStrings then Setting(s.(valuesType := t), s.resultType)
    else Setting(s, s.resultType)
  }

  /** `valueType(type)` returning the default it sets, as `resultType` does. */
  function SetValueTypeIntended(s: Session, t: bv32): (r: Setting)
    ensures r.reported == r.session.valuesType
    ensures r.session == SetValueType(s, t).session
    ensures IsValueShape(t) ==> r.reported == t
    ensures !IsValueShape(t) ==> r.reported == s.valuesType
    ensures s.Valid() ==> IsValueShape(r.reported)
  {
    var r := SetValueType(s, t);
    Setting(r.session, r.session.valuesType)
  }

  /** The discrepancy on a concrete input: on a fresh session, asking for
      string values reports RESULTSASARRAY instead of VALUESARESTRINGS. */
  lemma ValueTypeReportsRowShape()
    ensures SetValueType(Session("", false, ResultsAsArray, ValuesAreNative, Options(None)), ValuesAreStrings).reported
         == ResultsAsArray
    ensures SetValueTypeIntended(Session("", false, ResultsAsArray, ValuesAreNative, Options(None)), ValuesAreStrings).reported
         == ValuesAreStrings
  {
  }

  /** The setters keep both defaults recognised, and repeating a setter
      changes nothing further. */
  lemma SettersPreserveValid(s: Session, t: bv32)
    requires s.Valid()
    ensures SetResultType(s, t).session.Valid() && SetValueType(s, t).session.Valid()
    ensures SetResultType(s, t).reported == ResultsAsArray || SetResultType(s, t).reported == ResultsAsObject
    ensures SetResultType(SetResultType(s, t).session, t) == SetResultType(s, t)
    ensures SetValueType(SetValueType(s, t).session, t).session == SetValueType(s, t).session
  {
  }

  /** The setters touch only their own axis. */
  lemma SettersAreIndependent(s: Session, t: bv32)
    ensures SetResultType(s, t).session.valuesType == s.valuesType
    ensures SetValueType(s, t).session.resultType == s.resultType
    ensures SetResultType(s, t).session.isOpen == s.isOpen && SetValueType(s, t).session.isOpen == s.isOpen
  {
  }

  /** The native open `openDatabase` makes (lines 61-65, 76-83): the flags
      are `androidFlags` when supplied, else 0; a file database also gets
      CREATE_IF_NECESSARY, an in-memory one does not. */
  function OpenCall(s: Session): (c: NativeCall)
    ensures s.name == MemoryName ==> c == CreateInMemory(s.options.androidFlags.GetOr(0))
    ensures s.name != MemoryName ==> c.OpenFile? && c.path == s.name
    ensures s.name != MemoryName ==> c.flags & CreateIfNecessary != 0
    ensures s.name != MemoryName ==> c.flags & !CreateIfNecessary == s.options.androidFlags.GetOr(0) & !CreateIfNecessary
  {
    var flags := s.options.androidFlags.GetOr(0);
    if s.name == MemoryName then CreateInMemory(flags)
    else OpenFile(s.name, flags | CreateIfNecessary)
  }

  /** A lifecycle call: the state afterwards, the promise outcome, the native calls. */
  datatype Transition = Transition(session: Session, outcome: Outcome, native: seq<NativeCall>)

  /** `openDatabase` (lines 58-74).  `open` says whether the native open
      succeeds (None) or what it throws.  Success marks the session open
      and resolves with the session; failure rejects and changes nothing.
      There is no check that the session is closed beforehand. */
  function OpenDatabase(open: NativeCall -> Option<string>, s: Session): (t: Transition)
    ensures t.native == [OpenCall(s)]
    ensures t.outcome.Resolve? <==> open(OpenCall(s)).None?
    ensures t.outcome.Resolve? ==> t.session == s.(isOpen := true) && t.outcome.value == Instance
    ensures t.outcome.Reject? ==> t.session == s && t.outcome.reason == Message(open(OpenCall(s)).value)
  {
    var call := OpenCall(s);
    match open(call)
    case Some(e) => Transition(s, Reject(Message(e)), [call])
    case None => Transition(s.(isOpen := true), Resolve(Instance), [call])
  }

  /**
   * `openDatabase` as written.  `_openDatabase` declares
   * `var android = android || {}` (line 77), hoisted like `java` in the
   * constructor, so `android.database` is undefined and lines 79/81 throw a
   * TypeError (its message `e`) before any native call.  Lines 66-68 catch
   * it: every call rejects and the open flag is never set.  `OpenDatabase`
   * is the intended behaviour.
   */
  function OpenDatabaseAsWritten(e: string, s: Session): (t: Transition)
    ensures t == OpenDatabase(_ => Some(e), s).(native := [])
  {
    Transition(s, Reject(Message(e)), [])
  }

  /** The discrepancy: as written, no session is ever opened and no native
      open is made; the intended `openDatabase` opens the session whenever
      the native open succeeds. */
  lemma OpenAsWrittenNeverOpens(e: string, s: Session, open: NativeCall -> Option<string>)
    requires !s.isOpen
    ensures !OpenDatabaseAsWritten(e, s).session.isOpen && OpenDatabaseAsWritten(e, s).native == []
    ensures OpenDatabaseAsWritten(e, s).outcome == Reject(Message(e))
    ensures open(OpenCall(s)).None? ==> OpenDatabase(open, s).session.isOpen
  {
  }

  /** `close` (lines 174-187).  `failure` is what the native close
      throws, if anything.  On a closed session it rejects and changes
      nothing; on an open one it closes the handle and clears the flag.
      When the native close throws, the flag is never cleared: the promise
      rejects with the error and the session stays open. */
  function Close(failure: Option<string>, s: Session): (t: Transition)
    ensures !s.isOpen ==> t.session == s && t.outcome == Reject(Message(AlreadyClosed)) && t.native == []
    ensures s.isOpen ==> t.native == [CloseDb]
    ensures s.isOpen && failure.None? ==> t.session == s.(isOpen := false) && t.outcome == Resolve(Undefined)
    ensures s.isOpen && failure.Some? ==> t.session == s && t.outcome == Reject(Message(failure.value))
  {
    if !s.isOpen then Transition(s, Reject(Message(AlreadyClosed)), [])
    else
      match failure
      case Some(e) => Transition(s, Reject(Message(e)), [CloseDb])
      case None => Transition(s.(isOpen := false), Resolve(Undefined), [CloseDb])
  }

  /** Opening then closing a closed session returns it to where it was. */
  lemma OpenThenCloseRestores(open: NativeCall -> Option<string>, s: Session)
    requires !s.isOpen
    ensures Close(None, OpenDatabase(open, s).session).session == s
  {
  }

  /** After a `close` that succeeded, a second `close` always rejects; after
      one that threw, the session is still open and may be closed again. */
  lemma CloseTwiceRejects(s: Session, second: Option<string>, e: string)
    ensures Close(second, Close(None, s).session).outcome == Reject(Message(AlreadyClosed))
    ensures s.isOpen ==> Close(Some(e), s).session.isOpen
    ensures s.isOpen ==> Close(None, Close(Some(e), s).session).outcome == Resolve(Undefined)
  {
  }
}

=== FILE: maybe.dfy ===
/** An optional value: JavaScript's `undefined`/`null` versus a present value. */
module Maybe {

  datatype Option<+T> = None | Some(value: T) {

    /** The value when present, otherwise `default` (JavaScript's `x !== undefined ? x : d`). */
    function GetOr(default: T): T {
      match this
      case Some(v) => v
      case None => default
    }
  }
}

=== FILE: modes.dfy ===
/**
 * Result-shape constants and the choice of a row-projection engine
 * (`_getResultEngine` in src/sqlite.android.ts).
 *
 * The RESULT_TYPE constants and the DbResult engines live in the `dbresult`
 * module, which is not part of this model.  The constants are assumed
 * to be 1, 2, 4 and 8, and the lemmas about
 * `ResolveEngine` are proved for those values.  That the fallbacks of
 * lines 89-95 are dead code needs only that the constants are four distinct
 * single bits (`DistinctBits`): `FallbacksDeadForAnyBits` proves it under
 * that hypothesis alone.  The engines are uninterpreted and identified by a
 * tag (`Engine`).
 */
module Modes {
  import opened Maybe

  const ResultsAsArray: bv32 := 1
  const ResultsAsObject: bv32 := 2
  const ValuesAreNative: bv32 := 4
  const ValuesAreStrings: bv32 := 8

  /** True when `x` has exactly one bit set. */
  predicate SingleBit(x: bv32) {
    x != 0 && x & (x - 1) == 0
  }

  /** The assumption on the RESULT_TYPE constants: each is a single bit and
      no two share it. */
  predicate DistinctBits(a: bv32, b: bv32, c: bv32, d: bv32) {
    && SingleBit(a) && SingleBit(b) && SingleBit(c) && SingleBit(d)
    && a & b == 0 && a & c == 0 && a & d == 0
    && b & c == 0 && b & d == 0
    && c & d == 0
  }

  lemma ConstantsHaveDistinctBits()
    ensures DistinctBits(ResultsAsArray, ResultsAsObject, ValuesAreNative, ValuesAreStrings)
  {
  }

  /** A recognised value of the row-shape axis. */
  predicate IsRowShape(t: bv32) {
    t == ResultsAsArray || t == ResultsAsObject
  }

  /** A recognised value of the value-shape axis. */
  predicate IsValueShape(t: bv32) {
    t == ValuesAreNative || t == ValuesAreStrings
  }

  /** The five projection engines of DbResult.  `GetResults` is whatever
      `DbResult.getResults` is at the time of the call; the setters hand the
      session defaults to DbResult, which may re-bind it. */
  datatype Engine = GetResults | RowArrayNative | RowArrayString | RowObjectNative | RowObjectString
  {
    predicate IsObject() {
      RowObjectNative? || RowObjectString?
    }

    predicate IsString() {
      RowArrayString? || RowObjectString?
    }
  }

  /** The four-way choice once both axes are resolved (lines 97-109): an
      object engine exactly when the row shape is RESULTSASOBJECT, a string
      engine exactly when the value shape is VALUESARESTRINGS. */
  function SelectEngine(resultType: bv32, valueType: bv32): (e: Engine)
    ensures e != GetResults
    ensures e.IsObject() <==> resultType == ResultsAsObject
    ensures e.IsString() <==> valueType == ValuesAreStrings
  {
    if resultType == ResultsAsObject then
      if valueType == ValuesAreStrings then RowObjectString else RowObjectNative
    else
      if valueType == ValuesAreStrings then RowArrayString else RowArrayNative
  }

  /** The row-shape axis as line 88 computes it.  JavaScript's `&` binds
      tighter than `|`, so this is `(mode & RESULTSASARRAY) | RESULTSASOBJECT`;
      the session default would stand in only when that is 0, which it never
      is.  The result is RESULTSASOBJECT exactly when the mode lacks the
      array bit, and RESULTSASARRAY|RESULTSASOBJECT otherwise. */
  function RowShape(m: bv32, default: bv32): (r: bv32)
    ensures r & ResultsAsObject != 0
    ensures r == ResultsAsObject <==> m & ResultsAsArray == 0
    ensures r & ResultsAsArray == m & ResultsAsArray
  {
    var t := (m & ResultsAsArray) | ResultsAsObject;
    if t == 0 then default else t
  }

  /** The value-shape axis as line 92 computes it:
      `(mode & VALUESARENATIVE) | VALUESARESTRINGS`, or the default when 0,
      which it never is.  The result is VALUESARESTRINGS exactly when the
      mode lacks the native bit. */
  function ValueShape(m: bv32, default: bv32): (r: bv32)
    ensures r & ValuesAreStrings != 0
    ensures r == ValuesAreStrings <==> m & ValuesAreNative == 0
    ensures r & ValuesAreNative == m & ValuesAreNative
  {
    var t := (m & ValuesAreNative) | ValuesAreStrings;
    if t == 0 then default else t
  }

  /** `_getResultEngine` as written: no mode (null, undefined or 0) gives
      the plain `GetResults` projection, any other mode one of the four row
      engines chosen from the two resolved axes. */
  function ResolveEngine(mode: Option<bv32>, defaultResult: bv32, defaultValues: bv32): (e: Engine)
    ensures e == GetResults <==> mode.None? || mode.value == 0
  {
    if mode.None? || mode.value == 0 then GetResults
    else SelectEngine(RowShape(mode.value, defaultResult), ValueShape(mode.value, defaultValues))
  }

  /** Closed form of the as-written resolution: for a non-zero mode, object
      rows exactly when the mode lacks the RESULTSASARRAY bit, strings
      exactly when it lacks the VALUESARENATIVE bit. */
  lemma ResolveEngineClosedForm(m: bv32, defaultResult: bv32, defaultValues: bv32)
    requires m != 0
    ensures ResolveEngine(Some(m), defaultResult, defaultValues).IsObject() <==> m & ResultsAsArray == 0
    ensures ResolveEngine(Some(m), defaultResult, defaultValues).IsString() <==> m & ValuesAreNative == 0
  {
  }

  /** As written, the session defaults never influence the engine
      `_getResultEngine` picks: both masked expressions contain a constant
      bit, so neither is ever 0 and the fallbacks of lines 89-95 are dead. */
  lemma DefaultsNeverConsulted(mode: Option<bv32>, r1: bv32, v1: bv32, r2: bv32, v2: bv32)
    ensures ResolveEngine(mode, r1, v1) == ResolveEngine(mode, r2, v2)
  {
  }

  /** One axis as written, for any constants: `(m & a) | o` with `o` a single
      bit not shared with `a` is never 0, and it equals `o` exactly when the
      mode lacks `a`. */
  lemma MaskedAxis(a: bv32, o: bv32, m: bv32)
    requires SingleBit(o) && a & o == 0
    ensures (m & a) | o != 0
    ensures (m & a) | o == o <==> m & a == 0
  {
  }

  /** The dead fallbacks follow from `DistinctBits` alone: for any four
      distinct single-bit constants, neither masked expression of lines 88
      and 92 is 0, and each equals its or-ed constant exactly when the mode
      lacks the masked bit. */
  lemma FallbacksDeadForAnyBits(arr: bv32, obj: bv32, native: bv32, str: bv32, m: bv32)
    requires DistinctBits(arr, obj, native, str)
    ensures (m & arr) | obj != 0 && (m & native) | str != 0
    ensures (m & arr) | obj == obj <==> m & arr == 0
    ensures (m & native) | str == str <==> m & native == 0
  {
    MaskedAxis(arr, obj, m);
    MaskedAxis(native, str, m);
  }

  /** The row axis the session defaults were written for: the mode masked
      by both row-shape bits, or the default when the mode names neither. */
  function RowShapeIntended(m: bv32, default: bv32): bv32 {
    var t := m & (ResultsAsArray | ResultsAsObject);
    if t == 0 then default else t
  }

  /** The value axis the session defaults were written for. */
  function ValueShapeIntended(m: bv32, default: bv32): bv32 {
    var t := m & (ValuesAreNative | ValuesAreStrings);
    if t == 0 then default else t
  }

  /** `_getResultEngine` with each axis masked by both of its bits. */
  function ResolveEngineIntended(mode: Option<bv32>, defaultResult: bv32, defaultValues: bv32): (e: Engine)
    ensures e == GetResults <==> mode.None? || mode.value == 0
  {
    if mode.None? || mode.value == 0 then GetResults
    else SelectEngine(RowShapeIntended(mode.value, defaultResult), ValueShapeIntended(mode.value, defaultValues))
  }

  /** The intended resolution honours the session default on an axis the
      mode leaves unset, and the mode's own bits otherwise. */
  lemma IntendedHonoursDefaults(m: bv32, defaultResult: bv32, defaultValues: bv32)
    requires m != 0
    ensures m & (ResultsAsArray | ResultsAsObject) == 0 ==>
      (ResolveEngineIntended(Some(m), defaultResult, defaultValues).IsObject() <==> defaultResult == ResultsAsObject)
    ensures m & (ResultsAsArray | ResultsAsObject) != 0 ==>
      (ResolveEngineIntended(Some(m), defaultResult, defaultValues).IsObject() <==> m & ResultsAsArray == 0)
    ensures m & (ValuesAreNative | ValuesAreStrings) == 0 ==>
      (ResolveEngineIntended(Some(m), defaultResult, defaultValues).IsString() <==> defaultValues == ValuesAreStrings)
    ensures m & (ValuesAreNative | ValuesAreStrings) != 0 ==>
      (ResolveEngineIntended(Some(m), defaultResult, defaultValues).IsString() <==> m & ValuesAreNative == 0)
  {
  }

  /** Both resolutions agree on every mode that names at least one bit on
      each axis, such as the RESULTSASARRAY|VALUESARENATIVE follow-up query
      of execSQL. */
  lemma ResolutionsAgree(m: bv32, defaultResult: bv32, defaultValues: bv32)
    requires m & (ResultsAsArray | ResultsAsObject) != 0 && m & (ValuesAreNative | ValuesAreStrings) != 0
    ensures ResolveEngine(Some(m), defaultResult, defaultValues)
         == ResolveEngineIntended(Some(m), defaultResult, defaultValues)
  {
  }

  /** The discrepancy on a concrete input: a session defaulting to arrays of
      native values and a mode naming only VALUESARENATIVE.  The code picks
      object rows; the intended resolution keeps the session's array rows. */
  lemma ValueOnlyModeGivesObjectRows()
    ensures ResolveEngine(Some(ValuesAreNative), ResultsAsArray, ValuesAreNative) == RowObjectNative
    ensures ResolveEngineIntended(Some(ValuesAreNative), ResultsAsArray, ValuesAreNative) == RowArrayNative
  {
  }

  /** As written, a mode of RESULTSASARRAY alone (the one `version` passes)
      selects arrays of strings, whatever the session defaults. */
  lemma ArrayOnlyModeGivesStrings(defaultResult: bv32, defaultValues: bv32)
    ensures ResolveEngine(Some(ResultsAsArray), defaultResult, defaultValues) == RowArrayString
  {
  }

  /** The follow-up mode of execSQL selects arrays of native values. */
  lemma FollowUpModeGivesArrayNative(defaultResult: bv32, defaultValues: bv32)
    ensures ResolveEngine(Some(ResultsAsArray | ValuesAreNative), defaultResult, defaultValues) == RowArrayNative
  {
  }
}
